=== FILE: README.md ===
# Octokit core: client composition, in Dafny

This project models the client-composition layer of `@octokit/core`
(`src/index.ts`): how a client class is derived with extra defaults or extra
plugins, and what its constructor does with the options it receives. It
covers these steps:

- it builds the per-instance request defaults: base URL, `user-agent` and
  `time-zone` headers, preview list, and the `request.hook` entry;
- it completes the caller's logger;
- it binds one of three authentication modes and registers at most one wrap
  on the `"request"` hook;
- it runs the class's plugins in order and assigns what each returns onto the
  instance.

The JavaScript values involved are modelled generically in `Js`:

- a value is `undefined`, `null`, a boolean, an integer, a string, or an
  object carrying its own enumerable properties;
- truthiness, property reads and `Object.assign` are modelled on those
  values, including the `TypeError`s they can raise.

A client class is an immutable value (`ClientClass.ClientClass`). It holds
the ordered plugin list and the stack of `defaults()` layers, newest first.
Deriving a class returns a new value, so the parent cannot change.

Code the core cannot see is a parameter (`Client.Env`). That covers the
package version and the platform's user agent. It also covers calling a
caller-supplied function (an auth strategy or a defaults transform) and
running a plugin. Both of those calls may throw.

Modules: `Decimal` (index keys and integer text), `Js`, `Logger`,
`ClientClass` (the builder), `Defaults` (one `defaults()` layer),
`RequestDefaults`, `Auth`, and `Client` (construction and plugin application).

## Model

| member | source | states |
|---|---|---|
| Logger.CreateLogger | src/index.ts:36-50 | A missing logger becomes `{}`. `null` and primitives fail with the `TypeError` of the first read or write. On success each of `debug`, `info`, `warn`, `error` keeps the caller's function if it is one, and otherwise gets the silent or console default. All four are then functions. The object's kind and every other property are untouched. |
| Logger.CreateLoggerIdempotent | src/index.ts:36-50 | Completing an already-completed logger changes nothing. |
| ClientClass.NewPlugins | src/index.ts:100-102 | The filter keeps exactly the incoming plugins not already in the current list. Each kept plugin appears as often as the arguments name it, and a present one appears zero times. |
| ClientClass.WithPlugins | src/index.ts:94-107 | `plugin()` keeps the parent list as a prefix. The result holds exactly the parent's and the incoming plugins. A plugin already present keeps its count. A new plugin appears as often as the call names it. The defaults layers are unchanged. |
| ClientClass.WithDefaults | src/index.ts:56-85 | `defaults()` leaves the plugin list unchanged. It puts the new defaults in front of every inherited layer. |
| ClientClass.NewPluginsKeepOrder | src/index.ts:100-102 | The plugins a call adds are a subsequence of its arguments, in their order. |
| ClientClass.WithPluginsKeepsOrder | src/index.ts:98-102 | The new list is the parent list followed by an order-preserving subsequence of the arguments. |
| ClientClass.NewPluginsOfPresent | src/index.ts:100-102 | If every incoming plugin is already present, nothing is added. |
| ClientClass.WithPluginsIdempotent | src/index.ts:98-102 | `C.plugin(ps).plugin(ps)` equals `C.plugin(ps)`. |
| ClientClass.PluginTwiceHeldOnce | src/index.ts:98-102 | `C.plugin(p).plugin(p)` holds `p` exactly once, unless `C` already held it more than once. |
| ClientClass.NewPluginsNoDuplicates | src/index.ts:100-102 | Arguments without repeats give added plugins without repeats. |
| ClientClass.WithPluginsNoDuplicates | src/index.ts:98-102 | A repeat-free class list extended by repeat-free arguments stays repeat-free. |
| ClientClass.RepeatsWithinOneCallKept | src/index.ts:100-102 | Repeats inside one call's arguments are not filtered: `Octokit.plugin(p, p)` lists `p` twice. |
| ClientClass.PluginsAndDefaultsCommute | src/index.ts:56-107 | `C.plugin(ps).defaults(d)` and `C.defaults(d).plugin(ps)` are the same class. |
| Defaults.ArgOptions | src/index.ts:62 | A falsy or missing argument becomes exactly `{}`. A truthy one is used as is. |
| Defaults.ApplyDefaults | src/index.ts:60-82 | A function `d` takes over: the parent receives exactly `d(options)`. For an object `d`, the result is a fresh plain object. Its keys are those of `d` and the options. The options win key by key, except that two truthy user agents are joined as `options.userAgent + " " + d.userAgent`. The layer fails only when it reads `userAgent` of a nullish `d`, which happens only behind a truthy `options.userAgent`. |
| Defaults.EmptyDefaultsAreNeutral | src/index.ts:69-80 | An empty defaults object passes on a plain copy of the options' own properties. |
| Defaults.UserAgentsJoined | src/index.ts:74-78 | Non-empty string user agents `a` (defaults) and `b` (options) give the parent `"b a"`. |
| RequestDefaults.UserAgentTrail | src/index.ts:52 | The library trail is `octokit-core.js/`, then the package version, a space, and the platform's user agent at the end. |
| RequestDefaults.Build | src/index.ts:110-142 | The `user-agent` header is `"<userAgent> <trail>"` when `userAgent` is truthy, and the trail otherwise. The `time-zone` header is present exactly when `timeZone` is truthy, and no other header is set. `baseUrl` and `previews` are replaced only by truthy options, and otherwise keep the library defaults (`https://api.github.com`, `[]`). `format` is `""`. `request` keeps every key of `options.request` and has `hook` overwritten. |
| RequestDefaults.UserAgentKeepsTrail | src/index.ts:127-130 | The `user-agent` header always ends with the library's trail. It starts with the caller's string user agent and a space when one is set. |
| RequestDefaults.NoOptionsDefaults | src/index.ts:111-130 | From `{}` come the default origin, only the `user-agent` header, and only `hook` in the request options. |
| RequestDefaults.BuildReadsOnlyItsOptions | src/index.ts:115-142 | Only `userAgent`, `baseUrl`, `previews`, `timeZone` and `request` shape the request defaults. Options that agree on those five build the same defaults. |
| RequestDefaults.TimeZoneHeader | src/index.ts:140-142 | `timeZone: "Europe/Amsterdam"` gives exactly the `user-agent` header and that `time-zone` header. |
| Auth.TokenAuthObject | src/index.ts:162-164 | The token strategy's `auth` is a function tied to the token. It carries exactly a `hook`, which is a function tied to the same token. |
| Auth.InstanceBeforeAuth | src/index.ts:144-147 | `this` when authentication is bound: exactly `request`, `graphql`, `log` and `hook` are set, with the instance's executor and logger, and `auth` is not yet set. |
| Auth.StrategyArgument | src/index.ts:168-183 | The strategy argument has keys `request`, `log`, `octokit` and `octokitOptions`, plus the keys of `options.auth`, which win. `octokit` is the instance so far: it holds `request`, `graphql`, `log` and `hook`, with the same executor and logger. `octokitOptions` holds every own option except `authStrategy`. |
| Auth.StrategySeesAllOtherOptions | src/index.ts:168-180 | Unless `options.auth` overrides it, `octokitOptions` together with `authStrategy` gives back every own option of the instance. |
| Auth.NoStrategyNoCall | src/index.ts:154-166 | Without a truthy `authStrategy`, no caller code is called. The binding depends neither on function behaviour nor on the logger. |
| Auth.BindAuth | src/index.ts:149-188 | There is at most one wrap, and none exactly when `authStrategy` and `auth` are both falsy. The three cases are (1) unauthenticated, with the no-op `auth`; (2) the token strategy for a truthy `auth`, with its hook wrapped; (3) the caller's strategy, called once with the argument above. Case (3) fails if the strategy is not a function, throws, or returns null or undefined. Otherwise its result becomes `auth` and its `hook` is wrapped. |
| Auth.CallAuth | src/index.ts:154-166 | Calling the unauthenticated `auth` resolves to `{ type: "unauthenticated" }` without calling out. Any other function runs its own code, and a value that is not a function cannot be called. |
| Auth.UnauthenticatedReportsIdentity | src/index.ts:154-159 | With no strategy and no credential, nothing is wrapped and `auth()` gives `{ type: "unauthenticated" }`. |
| Client.CompletedOptions | src/index.ts:36-49 | `createLogger` completes the caller's logger object in place, so afterwards the options' `log` is the completed logger. A missing logger leaves the options as they were. Nothing but `log` changes. |
| Client.Prepare | src/index.ts:109-188 | Before plugins run, construction fails only where the logger or the auth binder fails, and it throws that error unchanged. The binder sees the options holding the completed logger. The instance then has exactly `request`, `graphql`, `log` and `hook`, the same values the strategy was handed as `octokit`, plus the bound `auth`. The only wrap is the one from auth binding. |
| Client.Absorb | src/index.ts:194 | One plugin's effect appends its wraps and adds its returned value's own keys. It does not touch the request defaults or the auth mode. |
| Client.RunPlugins | src/index.ts:192-195 | Plugins never change the bound request defaults or the auth mode. They only append wraps after the existing ones and never remove a property. |
| Client.ApplyPlugins | src/index.ts:190-195 | The `for` loop computes the same result as the recursive definition, stopping at the first plugin that throws. |
| Client.Base | src/index.ts:109-196 | A `null` argument fails with the `TypeError` of the first read, and a failure before the plugins is thrown unchanged. A successful instance has request defaults built from `options` (`{}` when missing). The plugins ran on what the constructor prepared: the auth mode is kept, the auth wrap comes first, and no prepared property is lost. |
| Client.ApplyLayers | src/index.ts:60-82 | Without layers the argument reaches the base constructor unchanged. A stack of object layers never fails and hands on a fresh plain object. |
| Client.ApplyLayersAppend | src/index.ts:56-85 | Stacking `defaults()` calls chains their layers: the older layers receive what the newer ones produced, and the first failure ends construction. |
| Client.New | src/index.ts:61-80 | A class with no defaults layer constructs with the base constructor directly. Every instance has the five core properties. |
| Client.NewWithDefaults | src/index.ts:60-82 | `new (C.defaults(d))(arg)` is `new C(o)`, where `o` is the merged options of the layer. |
| Client.NewWithFunctionDefaults | src/index.ts:64-66 | With a function as defaults, `new C(f(arg or {}))` is constructed, with no other merging. |
| Client.RunPluginsAppend | src/index.ts:192-195 | Running two plugin lists one after the other is the same as running their concatenation. |
| Client.PluginSeesPredecessors | src/index.ts:193-194 | The `i`-th plugin runs on exactly the instance the first `i` plugins left. |
| Client.ParentPluginsRunFirst | src/index.ts:98-102 | In `C.plugin(ps)`, `C`'s plugins run first and the added ones run after them. |
| Client.RunPluginsIsFold | src/index.ts:192-195 | A successful loop has one effect per plugin. The properties are the returned values assigned in turn, and the wraps are the registrations appended in turn. |
| Client.LastWriterWins | src/index.ts:194 | A property holds the value from the last returned value that had it. If none had it, the property keeps its earlier value, or is absent if it had none. |
| Client.ReturningNothingChangesNothing | src/index.ts:194 | A plugin that returns `undefined` or `null` and registers nothing leaves the instance as it was. |
| Client.LaterPluginOverrides | src/index.ts:193-194 | For `plugin(p1, p2)` where both return `k`, the instance keeps `p2`'s `k`. This also holds when `p1` and `p2` are the same plugin. |
| Client.DefaultsUserAgentJoined | src/index.ts:74-78 | For a class `C` without defaults layers, `C.defaults({userAgent: a})` constructed with `{userAgent: b}`, for non-empty strings `a` and `b`, sends `user-agent: "b a <trail>"`. |
| Client.StrategySeesCompletedLogger | src/index.ts:146-181 | A strategy receives the completed logger as `log`, and as `octokitOptions.log` when the caller passed a logger object. |
| Client.PluginsSeeCompletedLogger | src/index.ts:146-194 | Construction runs the plugins on the prepared instance, with the options as `createLogger` left them. When the caller passed a logger object, the options' `log` is the instance's completed logger. Otherwise they are the caller's own options. Nothing but `log` differs. |
| Client.UnauthenticatedInstance | src/index.ts:154-159 | With no strategy and no credential, construction reaches the plugins for any missing or object logger. No wrap is registered before plugins, and the instance is in unauthenticated mode. Calling its `auth` gives `{ type: "unauthenticated" }`. |

## Left out

- HTTP execution and endpoint expansion (`request.defaults`, `request.endpoint`, the `accept` header): these belong to the request library. The instance's `request` is an opaque function value, and the defaults it is bound to are recorded.
- GraphQL (`withCustomRequest`, src/index.ts:145): only an opaque `graphql` function value.
- The hook library's execution semantics (wrap nesting, before/after/error): the hook is modelled only as the list of wraps registered on `"request"`.
- The token strategy's internals and anything a strategy returns: these are opaque values. The token library's own checks on the token (it rejects a missing or non-string token) are not modelled.
- `VERSION` and `getUserAgent()`: these are parameters, and the trail is `"octokit-core.js/" + version + " " + platform`. The static `Octokit.VERSION` is not modelled.
- Console sinks and the `noop` function: these are opaque function values.
- Promises: `auth()` is modelled by the value its promise resolves to.
- Logger.CreateLogger: reads own properties only. A logger whose methods come from its prototype, such as an instance of a logger class, is treated as missing them and gets defaults written over them.
- Client.CompletedOptions: values are not shared references. Other places that hold the same logger object, such as the caller's own variable or a `defaults()` object, are not shown as completed.
- Auth.StrategyArgument: `octokit` is a snapshot of the instance at the call. The live object later also gains `auth` and what plugins return, and the model does not show that to the strategy.
- Js.IndexedChars: a string's characters are keyed one per Dafny character. JavaScript keys them by UTF-16 code unit, so a character outside the Basic Multilingual Plane takes two keys there.
- Defaults.ApplyDefaults: object-valued user agents are rendered as `[object Object]`. Arrays, functions and custom `toString` render differently in JavaScript. The same applies to the `user-agent` header in RequestDefaults.Build.
- Numbers are integers. Floating point values and their text are not modelled.
- Plugins are modelled by what they register on the hook and what they return. Other writes a plugin makes to the instance are left out. So are its writes to the shared `options` object, which src/index.ts:194 passes unchanged to every later plugin: each plugin is modelled as receiving the options as construction left them.
- Client.DefaultsUserAgentJoined: stated for a class without defaults layers. A class that already has a user-agent layer `c` joins once more per layer, giving `"b a c <trail>"`, and the lemma does not cover that case.
- Callers mutating a class's static `plugins` array, and constructor arguments after the first, are left out. The source ignores those arguments.
- The TypeScript type declarations (src/index.ts:198-211) and the build script `scripts/build.mjs` are left out.

## Notes on the source

- src/index.ts:186 reads `auth.hook` without checking it. A strategy result without `hook` therefore registers `undefined` as the wrap, and construction fails only when the strategy is not a function, throws, or returns `null` or `undefined`. `Auth.BindAuth` models exactly this.
- Not mutating the parent class holds by construction: class values are immutable, so each builder call yields a new value.

=== FILE: auth.dfy ===
/** The authentication binder (src/index.ts:149-188): at construction the
    instance is bound to exactly one of three modes, and at most one wrap is
    registered on the `"request"` hook for it. */
module Auth {
  import opened Js

  datatype AuthState =
    | Unauthenticated
    | TokenAuthenticated(token: Value)
    | StrategyAuthenticated(strategy: FnRef, argument: map<string, Value>)

  /** What binding leaves behind: the mode, the instance's `auth` value, and
      the wraps registered on `"request"`, in registration order. */
  datatype Binding = Binding(state: AuthState, auth: Value, wraps: seq<Value>)

  /** What `auth()` resolves to on an unauthenticated instance. */
  const UnauthenticatedIdentity: Value := Obj(Plain, map["type" := Str("unauthenticated")])

  const UnauthenticatedAuthFn: Value := FunctionValue(Core(UnauthenticatedAuth))

  /** `createTokenAuth(token)`: a function carrying the `hook` it wants
      wrapped around every request. */
  function TokenAuthObject(token: Value): (r: Value)
    // a callable `auth` whose `hook` is a function, both tied to the token
    ensures IsFunction(r) && r.kind.fn == Core(TokenAuth(token))
    ensures IsFunction(Field(r, "hook")) && Field(r, "hook").kind.fn == Core(TokenHook(token))
    ensures r.props.Keys == {"hook"}
  {
    Obj(Function(Core(TokenAuth(token))), map["hook" := FunctionValue(Core(TokenHook(token)))])
  }

  /** The instance's `request`, `graphql` and `hook` (src/index.ts:144-147). */
  const RequestValue: Value := FunctionValue(Core(BoundRequest))
  const GraphqlValue: Value := FunctionValue(Core(BoundGraphql))
  const HookValue: Value := Obj(HookCollection, map[])

  /** `this` as it stands when authentication is bound: `request`, `graphql`,
      `log` and `hook` are set, `auth` is not yet. */
  function InstanceBeforeAuth(log: Value): (r: Value)
    ensures r.Obj? && r.kind == ThisInstance
    ensures r.props.Keys == {"request", "graphql", "log", "hook"}
    ensures r.props["request"] == RequestValue && r.props["log"] == log
  {
    Obj(ThisInstance, map["request" := RequestValue, "graphql" := GraphqlValue, "log" := log, "hook" := HookValue])
  }
  const StrategyKeys: set<string> := {"request", "log", "octokit", "octokitOptions"}

  /** The single argument an auth strategy is called with: the instance's
      request executor, logger, the instance itself and its options without
      `authStrategy`, overlaid with the properties of `options.auth`. */
  function StrategyArgument(options: Value, log: Value): (m: map<string, Value>)
    requires !Nullish(options)
    ensures var own := OwnProps(Field(options, "auth"));
      && m.Keys == StrategyKeys + own.Keys
      // the keys of `options.auth` win
      && (forall k :: k in own ==> m[k] == own[k])
      && ("request" !in own ==> m["request"] == RequestValue)
      && ("log" !in own ==> m["log"] == log)
      // the instance handed on already carries the same executor and logger
      && ("octokit" !in own ==>
            var octokit := m["octokit"];
            && octokit.Obj? && octokit.kind == ThisInstance
            && octokit.props.Keys == {"request", "graphql", "log", "hook"}
            && octokit.props["request"] == RequestValue && octokit.props["log"] == log)
    // every option but `authStrategy` is handed on
    ensures "octokitOptions" !in OwnProps(Field(options, "auth")) ==>
      var passed := m["octokitOptions"];
      && passed.Obj? && passed.kind == Plain
      && passed.props.Keys == OwnProps(options).Keys - {"authStrategy"}
      && (forall k :: k in passed.props ==> passed.props[k] == OwnProps(options)[k])
  {
    var otherOptions := OwnProps(options) - {"authStrategy"};
    var base := map[
      "request" := RequestValue,
      "log" := log,
      "octokit" := InstanceBeforeAuth(log),
      "octokitOptions" := Obj(Plain, otherOptions)];
    Assign(base, Field(options, "auth"))
  }

  /** Chooses and binds the authentication mode. `invoke` is what calling a
      function value does. */
  function BindAuth(options: Value, log: Value, invoke: (FnRef, Value) -> Result<Value>): (r: Result<Binding>)
    requires !Nullish(options)
    // at most one wrap; none exactly when neither a strategy nor a
    // credential is given
    ensures r.Ok? ==> |r.value.wraps| <= 1
    ensures r.Ok? ==>
      (r.value.wraps == [] <==> !Truthy(Field(options, "authStrategy")) && !Truthy(Field(options, "auth")))
    // (1) unauthenticated
    ensures !Truthy(Field(options, "authStrategy")) && !Truthy(Field(options, "auth")) ==>
      r == Ok(Binding(Unauthenticated, UnauthenticatedAuthFn, []))
    // (2) the token strategy, with its hook wrapped around requests
    ensures !Truthy(Field(options, "authStrategy")) && Truthy(Field(options, "auth")) ==>
      var token := Field(options, "auth");
      r == Ok(Binding(TokenAuthenticated(token), TokenAuthObject(token), [FunctionValue(Core(TokenHook(token)))]))
    // (3) the caller's strategy: not a function, throwing, or returning
    // null or undefined fails construction; otherwise its `hook` is wrapped
    ensures Truthy(Field(options, "authStrategy")) ==>
      var strategy := Field(options, "authStrategy");
      if !IsFunction(strategy) then r == Err(NotCallable("authStrategy"))
      else
        var argument := StrategyArgument(options, log);
        var made := invoke(strategy.kind.fn, Obj(Plain, argument));
        if made.Err? then r == Err(made.error)
        else if Nullish(made.value) then r == Err(ReadOfNullish("hook"))
        else r == Ok(Binding(StrategyAuthenticated(strategy.kind.fn, argument), made.value, [Field(made.value, "hook")]))
  {
    var strategy := Field(options, "authStrategy");
    if !Truthy(strategy) then
      if !Truthy(Field(options, "auth")) then
        Ok(Binding(Unauthenticated, UnauthenticatedAuthFn, []))
      else
        var auth := TokenAuthObject(Field(options, "auth"));
        Ok(Binding(TokenAuthenticated(Field(options, "auth")), auth, [Field(auth, "hook")]))
    else if !IsFunction(strategy) then
      Err(NotCallable("authStrategy"))
    else
      var argument := StrategyArgument(options, log);
      match invoke(strategy.kind.fn, Obj(Plain, argument))
      case Err(e) => Err(e)
      case Ok(auth) =>
        if Nullish(auth) then Err(ReadOfNullish("hook"))
        else Ok(Binding(StrategyAuthenticated(strategy.kind.fn, argument), auth, [Field(auth, "hook")]))
  }

  /** Calling the instance's `auth` (the resolved value of its promise). */
  function CallAuth(auth: Value, invoke: (FnRef, Value) -> Result<Value>): (r: Result<Value>)
    // the unauthenticated `auth` resolves to its identity without calling out
    ensures auth == UnauthenticatedAuthFn ==> r == Ok(UnauthenticatedIdentity)
    // any other function is the caller's or the token library's code
    ensures IsFunction(auth) && auth != UnauthenticatedAuthFn ==> r == invoke(auth.kind.fn, Undefined)
    // and a value that is not a function cannot be called
    ensures !IsFunction(auth) ==> r == Err(NotCallable("auth"))
  {
    if auth == UnauthenticatedAuthFn then Ok(UnauthenticatedIdentity)
    else if IsFunction(auth) then invoke(auth.kind.fn, Undefined)
    else Err(NotCallable("auth"))
  }

  /** Without a strategy and without a credential, `auth()` reports
      `{ type: "unauthenticated" }` and nothing wraps requests. */
  lemma UnauthenticatedReportsIdentity(options: Value, log: Value, invoke: (FnRef, Value) -> Result<Value>)
    requires !Nullish(options)
    requires !Truthy(Field(options, "authStrategy")) && !Truthy(Field(options, "auth"))
    ensures var b := BindAuth(options, log, invoke);
      b.Ok? && b.value.wraps == [] &&
      CallAuth(b.value.auth, invoke) == Ok(Obj(Plain, map["type" := Str("unauthenticated")]))
  {
  }

  /** Together with `authStrategy`, the options the strategy receives give
      back every own option of the instance. */
  lemma StrategySeesAllOtherOptions(options: Value, log: Value)
    requires !Nullish(options)
    requires "octokitOptions" !in OwnProps(Field(options, "auth"))
    ensures var passed := StrategyArgument(options, log)["octokitOptions"].props;
      var own := OwnProps(options);
      own == if "authStrategy" in own then passed["authStrategy" := own["authStrategy"]] else passed
  {
    var own := OwnProps(options);
    assert StrategyArgument(options, log)["octokitOptions"].props == own - {"authStrategy"};
    RestoreRemoved(own, "authStrategy");
  }

  lemma RestoreRemoved(m: map<string, Value>, key: string)
    ensures m == if key in m then (m - {key})[key := m[key]] else m - {key}
  {
  }

  /** Without `authStrategy` no caller code runs: the binding does not
      depend on what calling a function does, nor on the logger. */
  lemma NoStrategyNoCall(options: Value, log1: Value, log2: Value,
                         invoke1: (FnRef, Value) -> Result<Value>, invoke2: (FnRef, Value) -> Result<Value>)
    requires !Nullish(options)
    requires !Truthy(Field(options, "authStrategy"))
    ensures BindAuth(options, log1, invoke1) == BindAuth(options, log2, invoke2)
  {
  }
}

=== FILE: client.dfy ===
/** Instantiating a client class (the constructor, src/index.ts:109-196, run
    under the constructors the `defaults()` layers add): the options pass
    through every defaults layer, newest first; the base constructor builds
    the request defaults, completes the logger, binds authentication, and
    then runs the class's plugins in order, assigning whatever each returns
    onto the instance. */
module Client {
  import opened Js
  import opened ClientClass
  import Defaults
  import RD = RequestDefaults
  import Logger
  import Auth

  /** A constructed client: what its `request` executor is bound to, its
      authentication mode, the wraps registered on its `"request"` hook (in
      registration order), and its properties. Plugins can overwrite any
      property, `log` and `auth` included, but not what the executor and the
      hook already captured. */
  datatype Instance = Instance(
    requestDefaults: RD.RequestDefaults,
    authState: Auth.AuthState,
    wraps: seq<Value>,
    props: map<string, Value>)

  /** What running one plugin did: the wraps it registered on the instance's
      hook, and the value it returned. */
  datatype PluginEffect = PluginEffect(registered: seq<Value>, returned: Value)

  /** What lies outside the core: the package version, the platform's user
      agent, what calling a function value does, and what a plugin does when
      run on an instance with the constructor's options. Both may throw. */
  datatype Env = Env(
    version: string,
    platform: string,
    invoke: (FnRef, Value) -> Result<Value>,
    runPlugin: (PluginId, Instance, Value) -> Result<PluginEffect>)

  /** The properties the base constructor sets. */
  const InstanceKeys: set<string> := {"request", "graphql", "log", "hook", "auth"}

  function Trail(env: Env): string {
    RD.UserAgentTrail(env.version, env.platform)
  }

  /** The constructor's options after `createLogger` has run. The caller's
      logger object is completed in place, so the options now hold the
      completed logger. A missing logger is replaced by a fresh object that
      the options never see. */
  function CompletedOptions(options: Value, log: Value): (o: Value)
    requires !Nullish(options)
    ensures !Nullish(o) && OwnProps(o).Keys == OwnProps(options).Keys
    ensures Field(options, "log").Obj? ==> Field(o, "log") == log
    ensures !Field(options, "log").Obj? ==> o == options
    // nothing but `log` changes
    ensures forall k :: k != "log" ==> Field(o, k) == Field(options, k)
    ensures forall k :: k != "log" && k in OwnProps(o) ==> OwnProps(o)[k] == OwnProps(options)[k]
  {
    if Field(options, "log").Obj? then options.(props := options.props["log" := log]) else options
  }

  /** The base constructor up to its plugin loop. */
  function Prepare(options: Value, env: Env): (r: Result<Instance>)
    requires !Nullish(options)
    // failing only where the logger or the auth binder fails
    ensures r.Ok? <==>
      && Logger.CreateLogger(Field(options, "log")).Ok?
      && var log := Logger.CreateLogger(Field(options, "log")).value;
         Auth.BindAuth(CompletedOptions(options, log), log, env.invoke).Ok?
    ensures r.Ok? ==>
      var log := Logger.CreateLogger(Field(options, "log")).value;
      var binding := Auth.BindAuth(CompletedOptions(options, log), log, env.invoke).value;
      && r.value.props.Keys == InstanceKeys
      && r.value.props["log"] == log
      && r.value.props["auth"] == binding.auth
      && r.value.authState == binding.state
      // the auth wrap, if any, is the first and only one before plugins run
      && r.value.wraps == binding.wraps && |r.value.wraps| <= 1
      && r.value.requestDefaults == RD.Build(options, Trail(env))
      // the executor, GraphQL client and hook are the ones the strategy saw
      && r.value.props == Auth.InstanceBeforeAuth(log).props["auth" := binding.auth]
    // nothing catches: construction throws the logger's or the binder's error
    ensures r.Err? ==>
      var logged := Logger.CreateLogger(Field(options, "log"));
      r.error == if logged.Err? then logged.error
                 else Auth.BindAuth(CompletedOptions(options, logged.value), logged.value, env.invoke).error
  {
    var logged := Logger.CreateLogger(Field(options, "log"));
    if logged.Err? then Err(logged.error)
    else
      var log := logged.value;
      var bound := Auth.BindAuth(CompletedOptions(options, log), log, env.invoke);
      if bound.Err? then Err(bound.error)
      else
        var props := Auth.InstanceBeforeAuth(log).props["auth" := bound.value.auth];
        Ok(Instance(RD.Build(options, Trail(env)), bound.value.state, bound.value.wraps, props))
  }

  /** `Object.assign(this, returned)` plus the wraps the plugin registered. */
  function Absorb(inst: Instance, effect: PluginEffect): (r: Instance)
    ensures r.requestDefaults == inst.requestDefaults && r.authState == inst.authState
    ensures r.wraps == inst.wraps + effect.registered
    ensures r.props.Keys == inst.props.Keys + OwnProps(effect.returned).Keys
  {
    inst.(wraps := inst.wraps + effect.registered, props := Assign(inst.props, effect.returned))
  }

  /** The plugin loop, as a recursion over the list: the first plugin runs on
      the instance as the constructor left it, each later one on what its
      predecessors left; the first plugin that throws ends construction. */
  function RunPlugins(ids: seq<PluginId>, inst: Instance, options: Value, env: Env): (r: Result<Instance>)
    // plugins cannot touch what the executor and the auth binding captured,
    // can only add wraps after the existing ones, and never remove a
    // property
    ensures r.Ok? ==>
      && r.value.requestDefaults == inst.requestDefaults
      && r.value.authState == inst.authState
      && inst.wraps <= r.value.wraps
      && inst.props.Keys <= r.value.props.Keys
    decreases |ids|
  {
    if ids == [] then Ok(inst)
    else
      match env.runPlugin(ids[0], inst, options)
      case Err(e) => Err(e)
      case Ok(effect) => RunPlugins(ids[1..], Absorb(inst, effect), options, env)
  }

  /** The effects of the plugins, in the order they ran, up to the first
      that threw. */
  function Effects(ids: seq<PluginId>, inst: Instance, options: Value, env: Env): (effects: seq<PluginEffect>)
    ensures |effects| <= |ids|
    decreases |ids|
  {
    if ids == [] then []
    else
      match env.runPlugin(ids[0], inst, options)
      case Err(_) => []
      case Ok(effect) => [effect] + Effects(ids[1..], Absorb(inst, effect), options, env)
  }

  /** The properties left by assigning each returned value in turn. */
  function AssignAll(props: map<string, Value>, effects: seq<PluginEffect>): map<string, Value>
    decreases |effects|
  {
    if effects == [] then props else AssignAll(Assign(props, effects[0].returned), effects[1..])
  }

  /** All wraps the plugins registered, in order. */
  function Registered(effects: seq<PluginEffect>): seq<Value>
    decreases |effects|
  {
    if effects == [] then [] else effects[0].registered + Registered(effects[1..])
  }

  /** `this.constructor.plugins` applied one by one
      (`for (let i = 0; ...) Object.assign(this, plugins[i](this, options))`). */
  method ApplyPlugins(ids: seq<PluginId>, inst: Instance, options: Value, env: Env) returns (r: Result<Instance>)
    ensures r == RunPlugins(ids, inst, options, env)
  {
    var current := inst;
    var i := 0;
    while i < |ids|
      invariant 0 <= i <= |ids|
      invariant RunPlugins(ids, inst, options, env) == RunPlugins(ids[i..], current, options, env)
    {
      var outcome := env.runPlugin(ids[i], current, options);
      if outcome.Err? {
        return Err(outcome.error);
      }
      assert ids[i..][1..] == ids[i + 1..];
      current := Absorb(current, outcome.value);
      i := i + 1;
    }
    return Ok(current);
  }

  /** The base constructor: `options = {}` for a missing argument, and a
      `TypeError` for `null` on its first property read. The plugins receive
      the options holding the completed logger. */
  function Base(plugins: seq<PluginId>, arg: Value, env: Env): (r: Result<Instance>)
    ensures arg.Null? ==> r == Err(ReadOfNullish("request"))
    ensures r.Ok? ==>
      var options := if arg.Undefined? then EmptyObject else arg;
      && InstanceKeys <= r.value.props.Keys
      && r.value.requestDefaults == RD.Build(options, Trail(env))
    // the plugins run on what the constructor prepared: they keep its auth
    // mode, its wrap and its properties
    ensures r.Ok? ==>
      var options := if arg.Undefined? then EmptyObject else arg;
      && !Nullish(options) && Prepare(options, env).Ok?
      && r.value.authState == Prepare(options, env).value.authState
      && Prepare(options, env).value.wraps <= r.value.wraps
      && Prepare(options, env).value.props.Keys <= r.value.props.Keys
    // a failure before the plugins is thrown unchanged
    ensures var options := if arg.Undefined? then EmptyObject else arg;
      !options.Null? && Prepare(options, env).Err? ==> r == Err(Prepare(options, env).error)
  {
    var options := if arg.Undefined? then EmptyObject else arg;
    if options.Null? then Err(ReadOfNullish("request"))
    else
      match Prepare(options, env)
      case Err(e) => Err(e)
      case Ok(inst) => RunPlugins(plugins, inst, CompletedOptions(options, inst.props["log"]), env)
  }

  /** The constructors of the `defaults()` layers, newest first; each hands
      its result to the next. */
  function ApplyLayers(layers: seq<Value>, arg: Value, invoke: (FnRef, Value) -> Result<Value>): (r: Result<Value>)
    // without layers the argument reaches the base constructor as it is
    ensures layers == [] ==> r == Ok(arg)
    // object layers never fail, and hand on a fresh plain object
    ensures layers != [] && (forall i :: 0 <= i < |layers| ==> layers[i].Obj? && !IsFunction(layers[i])) ==>
      r.Ok? && r.value.Obj? && r.value.kind == Plain
    decreases |layers|
  {
    if layers == [] then Ok(arg)
    else
      match Defaults.ApplyDefaults(layers[0], arg, invoke)
      case Err(e) => Err(e)
      case Ok(next) => ApplyLayers(layers[1..], next, invoke)
  }

  /** `new C(arg)`. */
  function New(c: ClientClass, arg: Value, env: Env): (r: Result<Instance>)
    ensures c.layers == [] ==> r == Base(c.plugins, arg, env)
    ensures r.Ok? ==> InstanceKeys <= r.value.props.Keys
  {
    match ApplyLayers(c.layers, arg, env.invoke)
    case Err(e) => Err(e)
    case Ok(options) => Base(c.plugins, options, env)
  }

  /** Stacking defaults chains the layers: the older layers receive what the
      newer ones produced. */
  lemma {:induction false} ApplyLayersAppend(newer: seq<Value>, older: seq<Value>, arg: Value, invoke: (FnRef, Value) -> Result<Value>)
    ensures ApplyLayers(newer + older, arg, invoke) ==
      match ApplyLayers(newer, arg, invoke)
      case Err(e) => Err(e)
      case Ok(mid) => ApplyLayers(older, mid, invoke)
    decreases |newer|
  {
    if newer == [] {
      assert newer + older == older;
    } else {
      assert (newer + older)[1..] == newer[1..] + older;
      match Defaults.ApplyDefaults(newer[0], arg, invoke)
      case Err(_) =>
      case Ok(next) => ApplyLayersAppend(newer[1..], older, next, invoke);
    }
  }

  // ---------------------------------------------------------------------
  // The class builder, seen through construction

  /** A `defaults(d)` class constructs by turning its argument into options
      and constructing its parent with them. */
  lemma NewWithDefaults(c: ClientClass, d: Value, arg: Value, env: Env)
    ensures New(WithDefaults(c, d), arg, env) ==
      match Defaults.ApplyDefaults(d, arg, env.invoke)
      case Err(e) => Err(e)
      case Ok(options) => New(c, options, env)
  {
  }

  /** With a function as defaults, the parent receives exactly what the
      function returns for the argument (or `{}`). */
  lemma NewWithFunctionDefaults(c: ClientClass, f: nat, arg: Value, env: Env)
    ensures New(WithDefaults(c, FunctionValue(User(f))), arg, env) ==
      match env.invoke(User(f), Defaults.ArgOptions(arg))
      case Err(e) => Err(e)
      case Ok(options) => New(c, options, env)
  {
  }

  /** Running two lists of plugins one after the other is running their
      concatenation. */
  lemma {:induction false} RunPluginsAppend(first: seq<PluginId>, second: seq<PluginId>, inst: Instance, options: Value, env: Env)
    ensures RunPlugins(first + second, inst, options, env) ==
      match RunPlugins(first, inst, options, env)
      case Err(e) => Err(e)
      case Ok(mid) => RunPlugins(second, mid, options, env)
    decreases |first|
  {
    if first == [] {
      assert first + second == second;
    } else {
      assert (first + second)[1..] == first[1..] + second;
      match env.runPlugin(first[0], inst, options)
      case Err(_) =>
      case Ok(effect) => RunPluginsAppend(first[1..], second, Absorb(inst, effect), options, env);
    }
  }

  /** The `i`-th plugin runs on exactly what the plugins before it left. */
  lemma PluginSeesPredecessors(ids: seq<PluginId>, i: nat, inst: Instance, options: Value, env: Env)
    requires i < |ids|
    requires RunPlugins(ids[..i], inst, options, env).Ok?
    ensures var before := RunPlugins(ids[..i], inst, options, env).value;
      RunPlugins(ids[..i + 1], inst, options, env) ==
        match env.runPlugin(ids[i], before, options)
        case Err(e) => Err(e)
        case Ok(effect) => Ok(Absorb(before, effect))
  {
    assert ids[..i + 1] == ids[..i] + [ids[i]];
    RunPluginsAppend(ids[..i], [ids[i]], inst, options, env);
  }

  /** In a class made by `C.plugin(...)`, `C`'s plugins run first, then the
      added ones. */
  lemma ParentPluginsRunFirst(c: ClientClass, incoming: seq<PluginId>, inst: Instance, options: Value, env: Env)
    ensures RunPlugins(WithPlugins(c, incoming).plugins, inst, options, env) ==
      match RunPlugins(c.plugins, inst, options, env)
      case Err(e) => Err(e)
      case Ok(mid) => RunPlugins(NewPlugins(incoming, c.plugins), mid, options, env)
  {
    RunPluginsAppend(c.plugins, NewPlugins(incoming, c.plugins), inst, options, env);
  }

  // ---------------------------------------------------------------------
  // Plugin application: last writer wins

  /** A successful plugin loop is the fold of its effects: properties
      assigned in turn, wraps appended in turn. */
  lemma {:induction false} RunPluginsIsFold(ids: seq<PluginId>, inst: Instance, options: Value, env: Env)
    requires RunPlugins(ids, inst, options, env).Ok?
    ensures var effects := Effects(ids, inst, options, env);
      var r := RunPlugins(ids, inst, options, env).value;
      && |effects| == |ids|
      && r.props == AssignAll(inst.props, effects)
      && r.wraps == inst.wraps + Registered(effects)
    decreases |ids|
  {
    if ids != [] {
      var effect := env.runPlugin(ids[0], inst, options).value;
      var next := Absorb(inst, effect);
      RunPluginsIsFold(ids[1..], next, options, env);
      var rest := Effects(ids[1..], next, options, env);
      assert ([effect] + rest)[1..] == rest;
      assert Registered([effect] + rest) == effect.registered + Registered(rest);
    }
  }

  /** After assigning the returned values in turn, a property holds the value
      of the last one that had it, or its earlier value when none had it. */
  lemma {:induction false} LastWriterWins(props: map<string, Value>, effects: seq<PluginEffect>, k: string)
    ensures k in AssignAll(props, effects) <==>
      k in props || exists j :: 0 <= j < |effects| && k in OwnProps(effects[j].returned)
    ensures forall j ::
      (&& 0 <= j < |effects|
       && k in OwnProps(effects[j].returned)
       && (forall i :: j < i < |effects| ==> k !in OwnProps(effects[i].returned)))
      ==> AssignAll(props, effects)[k] == OwnProps(effects[j].returned)[k]
    ensures k in props && (forall j :: 0 <= j < |effects| ==> k !in OwnProps(effects[j].returned)) ==>
      AssignAll(props, effects)[k] == props[k]
    decreases |effects|
  {
    if effects != [] {
      var first := Assign(props, effects[0].returned);
      var rest := effects[1..];
      LastWriterWins(first, rest, k);
      assert forall j :: 0 < j < |effects| ==> effects[j] == rest[j - 1];
      if k in AssignAll(props, effects) && k !in props {
        if k !in OwnProps(effects[0].returned) {
          var j :| 0 <= j < |rest| && k in OwnProps(rest[j].returned);
          assert k in OwnProps(effects[j + 1].returned);
        }
      }
      if exists j :: 0 <= j < |effects| && k in OwnProps(effects[j].returned) {
        var j :| 0 <= j < |effects| && k in OwnProps(effects[j].returned);
        if j > 0 {
          assert k in OwnProps(rest[j - 1].returned);
        }
      }
      forall j | 0 <= j < |effects| && k in OwnProps(effects[j].returned) &&
        (forall i :: j < i < |effects| ==> k !in OwnProps(effects[i].returned))
        ensures AssignAll(props, effects)[k] == OwnProps(effects[j].returned)[k]
      {
        if j == 0 {
          assert forall i :: 0 <= i < |rest| ==> k !in OwnProps(rest[i].returned) by {
            forall i | 0 <= i < |rest|
              ensures k !in OwnProps(rest[i].returned)
            {
              assert rest[i] == effects[i + 1];
            }
          }
        } else {
          assert forall i :: j - 1 < i < |rest| ==> k !in OwnProps(rest[i].returned) by {
            forall i | j - 1 < i < |rest|
              ensures k !in OwnProps(rest[i].returned)
            {
              assert rest[i] == effects[i + 1];
            }
          }
          assert effects[j] == rest[j - 1];
        }
      }
      if k in props && (forall j :: 0 <= j < |effects| ==> k !in OwnProps(effects[j].returned)) {
        assert forall i :: 0 <= i < |rest| ==> k !in OwnProps(rest[i].returned) by {
          forall i | 0 <= i < |rest|
            ensures k !in OwnProps(rest[i].returned)
          {
            assert rest[i] == effects[i + 1];
          }
        }
      }
    }
  }

  /** A plugin that returns nothing (or null) and registers nothing leaves
      the instance as it was. */
  lemma ReturningNothingChangesNothing(inst: Instance, returned: Value)
    requires Nullish(returned)
    ensures Absorb(inst, PluginEffect([], returned)) == inst
  {
  }

  /** `C.plugin(p1, p2)` where both return a property `k`: `p2`'s value is the
      one the instance keeps, also when `p1` and `p2` are the same plugin. */
  lemma LaterPluginOverrides(p1: PluginId, p2: PluginId, inst: Instance, options: Value, env: Env, k: string)
    requires RunPlugins([p1, p2], inst, options, env).Ok?
    requires var e := Effects([p1, p2], inst, options, env);
      |e| == 2 && k in OwnProps(e[0].returned) && k in OwnProps(e[1].returned)
    ensures var e := Effects([p1, p2], inst, options, env);
      RunPlugins([p1, p2], inst, options, env).value.props[k] == OwnProps(e[1].returned)[k]
  {
    RunPluginsIsFold([p1, p2], inst, options, env);
    LastWriterWins(inst.props, Effects([p1, p2], inst, options, env), k);
  }

  // ---------------------------------------------------------------------
  // End-to-end consequences

  /** `C.defaults({ userAgent: a })` constructed with `{ userAgent: b }`
      sends `"b a <library user agent>"`. */
  lemma DefaultsUserAgentJoined(c: ClientClass, defaultsProps: map<string, Value>, optionProps: map<string, Value>,
                                a: string, b: string, env: Env)
    requires c.layers == []
    requires "userAgent" in defaultsProps && defaultsProps["userAgent"] == Str(a) && a != ""
    requires "userAgent" in optionProps && optionProps["userAgent"] == Str(b) && b != ""
    ensures var r := New(WithDefaults(c, Obj(Plain, defaultsProps)), Obj(Plain, optionProps), env);
      r.Ok? ==> r.value.requestDefaults.headers["user-agent"] == Str(b + " " + a + " " + Trail(env))
  {
    var d := Obj(Plain, defaultsProps);
    var merged := Defaults.ApplyDefaults(d, Obj(Plain, optionProps), env.invoke);
    Defaults.UserAgentsJoined(defaultsProps, optionProps, a, b, env.invoke);
    NewWithDefaults(c, d, Obj(Plain, optionProps), env);
    assert Field(merged.value, "userAgent") == Str(b + " " + a);
    assert (b + " " + a) + " " + Trail(env) == b + " " + a + " " + Trail(env);
  }

  /** Without a strategy and without a credential, construction succeeds up
      to the plugins for any missing or object logger, no wrap is registered
      before the plugins run, and `auth()` reports the unauthenticated
      identity unless a plugin replaced `auth`. */
  lemma UnauthenticatedInstance(options: Value, env: Env)
    requires !Nullish(options)
    requires !Truthy(Field(options, "authStrategy")) && !Truthy(Field(options, "auth"))
    requires Field(options, "log").Undefined? || Field(options, "log").Obj?
    ensures Prepare(options, env).Ok?
    ensures Prepare(options, env).value.wraps == []
    ensures Prepare(options, env).value.authState == Auth.Unauthenticated
    ensures Auth.CallAuth(Prepare(options, env).value.props["auth"], env.invoke)
      == Ok(Obj(Plain, map["type" := Str("unauthenticated")]))
  {
  }

  // ---------------------------------------------------------------------
  // The logger completed in place

  /** A strategy sees the completed logger twice: as `log`, and as
      `octokitOptions.log` when the caller passed a logger object. `Prepare`
      binds with exactly these arguments, and `log` is the instance's logger. */
  lemma StrategySeesCompletedLogger(options: Value, log: Value, invoke: (FnRef, Value) -> Result<Value>)
    requires !Nullish(options)
    requires IsFunction(Field(options, "authStrategy"))
    requires "log" !in OwnProps(Field(options, "auth")) && "octokitOptions" !in OwnProps(Field(options, "auth"))
    requires Field(options, "log").Obj?
    requires Auth.BindAuth(CompletedOptions(options, log), log, invoke).Ok?
    ensures var state := Auth.BindAuth(CompletedOptions(options, log), log, invoke).value.state;
      && state.StrategyAuthenticated?
      && state.argument["log"] == log
      && Field(state.argument["octokitOptions"], "log") == log
  {
    var completed := CompletedOptions(options, log);
    var argument := Auth.StrategyArgument(completed, log);
    assert Auth.BindAuth(completed, log, invoke).value.state.argument == argument;
    var passed := argument["octokitOptions"];
    assert completed.Obj? && "log" in completed.props && completed.props["log"] == log;
    assert "log" in passed.props;
    assert passed.props["log"] == OwnProps(completed)["log"];
  }

  /** During construction the plugins run on the prepared instance with
      the constructor's options as `createLogger` left them: when the caller
      passed a logger object, its `log` is the instance's completed logger;
      otherwise the options are the caller's own. Nothing but `log` differs. */
  lemma PluginsSeeCompletedLogger(plugins: seq<PluginId>, arg: Value, env: Env)
    ensures var options := if arg.Undefined? then EmptyObject else arg;
      !options.Null? && Prepare(options, env).Ok? ==>
        var inst := Prepare(options, env).value;
        exists seen ::
          && Base(plugins, arg, env) == RunPlugins(plugins, inst, seen, env)
          && (Field(options, "log").Obj? ==> Field(seen, "log") == inst.props["log"])
          && (!Field(options, "log").Obj? ==> seen == options)
          && (forall k :: k != "log" ==> Field(seen, k) == Field(options, k))
  {
    var options := if arg.Undefined? then EmptyObject else arg;
    if !options.Null? && Prepare(options, env).Ok? {
      var inst := Prepare(options, env).value;
      var seen := CompletedOptions(options, inst.props["log"]);
      assert Base(plugins, arg, env) == RunPlugins(plugins, inst, seen, env);
    }
  }
}

=== FILE: client_class.dfy ===
/** The class builder (`Octokit.defaults`, src/index.ts:56-85, and
    `Octokit.plugin`, src/index.ts:94-107) as an immutable value: a client
    class is the ordered list of plugins its instances run and the stack of
    defaults its constructor applies before the base constructor. Every
    builder call returns a new class value and leaves its argument as it
    was. */
module ClientClass {
  import opened Js

  /** A plugin function, told apart by identity. */
  type PluginId = nat

  /** `layers[0]` is the defaults of the most derived `defaults()` call:
      its constructor runs first and hands its result to the next layer. */
  datatype ClientClass = ClientClass(plugins: seq<PluginId>, layers: seq<Value>)

  /** The base class: no plugins (`static plugins = []`), no defaults. */
  const Octokit: ClientClass := ClientClass([], [])

  predicate NoDuplicates(s: seq<PluginId>) {
    forall i, j :: 0 <= i < j < |s| ==> s[i] != s[j]
  }

  /** `s` is `t` with some elements dropped, the rest in their order. */
  predicate IsSubsequence(s: seq<PluginId>, t: seq<PluginId>)
    decreases |t|
  {
    || s == []
    || (t != [] && ((s[0] == t[0] && IsSubsequence(s[1..], t[1..])) || IsSubsequence(s, t[1..])))
  }

  /** `incoming.filter(p => !current.includes(p))`. */
  function NewPlugins(incoming: seq<PluginId>, current: seq<PluginId>): (r: seq<PluginId>)
    ensures forall p :: p in r <==> p in incoming && p !in current
    // a plugin not yet present is kept as often as it is given
    ensures forall p :: multiset(r)[p] == if p in current then 0 else multiset(incoming)[p]
    ensures |r| <= |incoming|
  {
    assert incoming != [] ==> incoming == [incoming[0]] + incoming[1..];
    if incoming == [] then []
    else if incoming[0] in current then NewPlugins(incoming[1..], current)
    else [incoming[0]] + NewPlugins(incoming[1..], current)
  }

  /** `C.plugin(...incoming)`. */
  function WithPlugins(c: ClientClass, incoming: seq<PluginId>): (r: ClientClass)
    // the parent's plugins come first, unchanged
    ensures c.plugins <= r.plugins
    // exactly the parent's plugins and the incoming ones are present
    ensures forall p :: p in r.plugins <==> p in c.plugins || p in incoming
    // a plugin already present is not added again
    ensures forall p :: p in c.plugins ==> multiset(r.plugins)[p] == multiset(c.plugins)[p]
    // a new plugin is added as often as the call names it
    ensures forall p :: p !in c.plugins ==> multiset(r.plugins)[p] == multiset(incoming)[p]
    // adding plugins adds no defaults
    ensures r.layers == c.layers
  {
    var added := NewPlugins(incoming, c.plugins);
    assert forall p :: p in c.plugins ==> multiset(added)[p] == 0;
    ClientClass(c.plugins + added, c.layers)
  }

  /** `C.defaults(d)`. */
  function WithDefaults(c: ClientClass, d: Value): (r: ClientClass)
    // adding defaults adds no plugins
    ensures r.plugins == c.plugins
    // the new defaults run before every inherited layer
    ensures |r.layers| == |c.layers| + 1 && r.layers[0] == d && r.layers[1..] == c.layers
  {
    ClientClass(c.plugins, [d] + c.layers)
  }

  /** The plugins a call adds keep the order they were given in. */
  lemma {:induction false} NewPluginsKeepOrder(incoming: seq<PluginId>, current: seq<PluginId>)
    ensures IsSubsequence(NewPlugins(incoming, current), incoming)
  {
    if incoming != [] {
      NewPluginsKeepOrder(incoming[1..], current);
      var rest := NewPlugins(incoming[1..], current);
      if incoming[0] !in current {
        assert ([incoming[0]] + rest)[1..] == rest;
      }
    }
  }

  /** Order of the parent's plugins and of the added ones is kept: the new
      list is the parent's list followed by a subsequence of the call's
      arguments. */
  lemma WithPluginsKeepsOrder(c: ClientClass, incoming: seq<PluginId>)
    ensures var r := WithPlugins(c, incoming);
      r.plugins[..|c.plugins|] == c.plugins &&
      IsSubsequence(r.plugins[|c.plugins|..], incoming)
  {
    var r := WithPlugins(c, incoming);
    assert r.plugins[|c.plugins|..] == NewPlugins(incoming, c.plugins);
    NewPluginsKeepOrder(incoming, c.plugins);
  }

  /** Adding plugins that are all present already changes nothing. */
  lemma {:induction false} NewPluginsOfPresent(incoming: seq<PluginId>, current: seq<PluginId>)
    requires forall p :: p in incoming ==> p in current
    ensures NewPlugins(incoming, current) == []
  {
    if incoming != [] {
      NewPluginsOfPresent(incoming[1..], current);
    }
  }

  /** Registering the same plugins twice is the same as registering them
      once. */
  lemma WithPluginsIdempotent(c: ClientClass, incoming: seq<PluginId>)
    ensures WithPlugins(WithPlugins(c, incoming), incoming) == WithPlugins(c, incoming)
  {
    var once := WithPlugins(c, incoming);
    NewPluginsOfPresent(incoming, once.plugins);
    assert once.plugins + [] == once.plugins;
  }

  /** `C.plugin(p).plugin(p)` holds `p` once, when `C` did not hold it more
      than once. */
  lemma PluginTwiceHeldOnce(c: ClientClass, p: PluginId)
    requires multiset(c.plugins)[p] <= 1
    ensures multiset(WithPlugins(WithPlugins(c, [p]), [p]).plugins)[p] == 1
  {
  }

  /** A list without repeats stays without repeats when the arguments of
      the call have none. */
  lemma {:induction false} NewPluginsNoDuplicates(incoming: seq<PluginId>, current: seq<PluginId>)
    requires NoDuplicates(incoming)
    ensures NoDuplicates(NewPlugins(incoming, current))
  {
    if incoming != [] {
      assert NoDuplicates(incoming[1..]) by {
        forall i, j | 0 <= i < j < |incoming[1..]|
          ensures incoming[1..][i] != incoming[1..][j]
        {
          assert incoming[1..][i] == incoming[i + 1];
        }
      }
      NewPluginsNoDuplicates(incoming[1..], current);
      var rest := NewPlugins(incoming[1..], current);
      if incoming[0] !in current {
        assert incoming[0] !in incoming[1..];
        assert incoming[0] !in rest;
      }
    }
  }

  lemma WithPluginsNoDuplicates(c: ClientClass, incoming: seq<PluginId>)
    requires NoDuplicates(c.plugins) && NoDuplicates(incoming)
    ensures NoDuplicates(WithPlugins(c, incoming).plugins)
  {
    var added := NewPlugins(incoming, c.plugins);
    NewPluginsNoDuplicates(incoming, c.plugins);
    var r := c.plugins + added;
    forall i, j | 0 <= i < j < |r|
      ensures r[i] != r[j]
    {
      if j >= |c.plugins| {
        assert r[j] == added[j - |c.plugins|];
        if i < |c.plugins| {
          assert r[i] in c.plugins;
        } else {
          assert r[i] == added[i - |c.plugins|];
        }
      }
    }
  }

  /** Repeats inside one call's arguments are not filtered out. */
  lemma RepeatsWithinOneCallKept(p: PluginId)
    ensures WithPlugins(Octokit, [p, p]).plugins == [p, p]
  {
  }

  /** `C.plugin(ps).defaults(d)` and `C.defaults(d).plugin(ps)` are the
      same class: the static plugin list a `defaults()` subclass inherits is
      its parent's, and a `plugin()` subclass inherits its parent's
      constructor. */
  lemma PluginsAndDefaultsCommute(c: ClientClass, incoming: seq<PluginId>, d: Value)
    ensures WithDefaults(WithPlugins(c, incoming), d) == WithPlugins(WithDefaults(c, d), incoming)
  {
  }
}

=== FILE: decimal.dfy ===
/** Decimal spelling of natural numbers, as JavaScript writes an integer
    index or an integral number when it turns it into a property key or a
    string. */
module Decimal {

  function Digit(d: nat): (c: char)
    requires d < 10
    ensures '0' <= c <= '9'
  {
    ('0' as int + d) as char
  }

  function DigitValue(c: char): nat {
    if '0' <= c <= '9' then c as int - '0' as int else 0
  }

  /** The shortest decimal spelling of `n`, most significant digit first. */
  function Show(n: nat): (s: string)
    ensures |s| >= 1
    ensures forall i :: 0 <= i < |s| ==> '0' <= s[i] <= '9'
  {
    if n < 10 then [Digit(n)] else Show(n / 10) + [Digit(n % 10)]
  }

  /** Reads a string of decimal digits back as a number. */
  function Parse(s: string): nat {
    if s == [] then 0 else Parse(s[..|s| - 1]) * 10 + DigitValue(s[|s| - 1])
  }

  lemma {:induction false} ParseShow(n: nat)
    ensures Parse(Show(n)) == n
  {
    if n >= 10 {
      var s := Show(n);
      assert s[..|s| - 1] == Show(n / 10);
      ParseShow(n / 10);
    }
  }

  /** Distinct indices give distinct keys. */
  lemma ShowInjective()
    ensures forall m: nat, n: nat :: Show(m) == Show(n) ==> m == n
  {
    forall m: nat, n: nat | Show(m) == Show(n)
      ensures m == n
    {
      ParseShow(m);
      ParseShow(n);
    }
  }
}

=== FILE: defaults.dfy ===
/** One `defaults()` layer (src/index.ts:60-82): the constructor of a class
    made by `C.defaults(d)` turns its argument into the options it passes to
    `C`'s constructor. */
module Defaults {
  import opened Js

  /** `args[0] || {}`: a falsy or missing argument counts as `{}`. */
  function ArgOptions(arg: Value): (o: Value)
    ensures Truthy(o)
    ensures Truthy(arg) ==> o == arg
    ensures !Truthy(arg) ==> o == EmptyObject
  {
    if Truthy(arg) then arg else EmptyObject
  }

  /** The options a `defaults(d)` layer passes to its parent constructor.
      `invoke` is what calling a function value does. */
  function ApplyDefaults(d: Value, arg: Value, invoke: (FnRef, Value) -> Result<Value>): (r: Result<Value>)
    // a function takes over entirely: its result goes to the parent as is
    ensures IsFunction(d) ==> r == invoke(d.kind.fn, ArgOptions(arg))
    // an object is merged; the only failure is reading `userAgent` of a
    // null or undefined `d`, which happens only for a truthy option
    ensures !IsFunction(d) ==>
      (r.Err? <==> Truthy(Field(ArgOptions(arg), "userAgent")) && Nullish(d))
    ensures !IsFunction(d) && r.Ok? ==>
      var o := ArgOptions(arg);
      && r.value.Obj? && r.value.kind == Plain
      && r.value.props.Keys == OwnProps(d).Keys + OwnProps(o).Keys
      // the instance options win key by key ...
      && (forall k :: k in r.value.props && k != "userAgent" ==>
            r.value.props[k] == if k in OwnProps(o) then OwnProps(o)[k] else OwnProps(d)[k])
    // ... except that two truthy user agents are joined, instance one first
    ensures !IsFunction(d) && r.Ok? ==>
      var o := ArgOptions(arg);
      var ua, uaDefault := Field(o, "userAgent"), Field(d, "userAgent");
      if Truthy(ua) && Truthy(uaDefault) then
        r.value.props["userAgent"] == Str(ToText(ua) + " " + ToText(uaDefault))
      else if "userAgent" in OwnProps(o) then
        r.value.props["userAgent"] == OwnProps(o)["userAgent"]
      else
        "userAgent" in OwnProps(d) ==> r.value.props["userAgent"] == OwnProps(d)["userAgent"]
  {
    var options := ArgOptions(arg);
    if IsFunction(d) then invoke(d.kind.fn, options)
    else
      var ua := Field(options, "userAgent");
      if Truthy(ua) && Nullish(d) then Err(ReadOfNullish("userAgent"))
      else
        var joined :=
          if Truthy(ua) && Truthy(Field(d, "userAgent"))
          then Obj(Plain, map["userAgent" := Str(ToText(ua) + " " + ToText(Field(d, "userAgent")))])
          else Null;
        IndexKeysAreDigits("userAgent", options);
        Ok(Obj(Plain, Assign(Assign(Assign(map[], d), options), joined)))
  }

  /** Empty object defaults hand the instance options on unchanged, as a
      fresh plain object. */
  lemma EmptyDefaultsAreNeutral(arg: Value, invoke: (FnRef, Value) -> Result<Value>)
    ensures ApplyDefaults(EmptyObject, arg, invoke) == Ok(Obj(Plain, OwnProps(ArgOptions(arg))))
  {
    var options := ArgOptions(arg);
    var own := OwnProps(options);
    assert Assign(map[], EmptyObject) == map[];
    assert Assign(map[], options) == own;
    assert Assign(own, Null) == own;
    assert ApplyDefaults(EmptyObject, arg, invoke) == Ok(Obj(Plain, Assign(Assign(Assign(map[], EmptyObject), options), Null)));
  }

  /** With string user agents on both sides the parent receives
      `"<instance> <defaults>"`. */
  lemma UserAgentsJoined(defaultsProps: map<string, Value>, optionProps: map<string, Value>,
                         a: string, b: string, invoke: (FnRef, Value) -> Result<Value>)
    requires "userAgent" in defaultsProps && defaultsProps["userAgent"] == Str(a) && a != ""
    requires "userAgent" in optionProps && optionProps["userAgent"] == Str(b) && b != ""
    ensures var r := ApplyDefaults(Obj(Plain, defaultsProps), Obj(Plain, optionProps), invoke);
      r.Ok? && r.value.props["userAgent"] == Str(b + " " + a)
  {
  }
}

=== FILE: js.dfy ===
/** The slice of JavaScript's value domain the client core touches: options
    objects, their truthiness, property reads, `Object.assign` and the
    `TypeError`s the core can run into. */
module Js {
  import Decimal

  /** Identity of a function value. Functions supplied by a caller (auth
      strategies, defaults transforms, logger methods, ...) are told apart by
      a number; the others are the functions the client core creates. */
  datatype FnRef = User(id: nat) | Core(builtin: Builtin)

  datatype Builtin =
    | Noop                    // the silent `debug`/`info` logger method
    | ConsoleWarn             // `console.warn`, bound
    | ConsoleError            // `console.error`, bound
    | BoundRequest            // `request.defaults(requestDefaults)`
    | BoundGraphql            // the GraphQL executor sharing those defaults
    | RequestTrigger          // `hook.bind(null, "request")`
    | UnauthenticatedAuth     // `async () => ({ type: "unauthenticated" })`
    | TokenAuth(token: Value) // what the token strategy returns for a token
    | TokenHook(token: Value) // that strategy's `hook`

  /** What an object is, beside its own enumerable properties. */
  datatype Kind =
    | Plain
    | ArrayObject
    | Function(fn: FnRef)
    | HookCollection  // the instance's `before-after-hook` collection
    | ThisInstance    // the client instance under construction

  datatype Value =
    | Undefined
    | Null
    | Bool(b: bool)
    | Num(n: int)
    | Str(s: string)
    | Obj(kind: Kind, props: map<string, Value>)

  /** The `TypeError`s the core can raise, and exceptions thrown by code it
      calls. */
  datatype Error =
    | ReadOfNullish(key: string)      // reading a property of null or undefined
    | AssignOnPrimitive(key: string)  // creating a property on a primitive (strict mode)
    | NotCallable(what: string)       // calling a value that is not a function
    | Thrown(reason: Value)           // an exception from caller-supplied code

  datatype Result<+T> = Ok(value: T) | Err(error: Error)

  const EmptyObject: Value := Obj(Plain, map[])
  const EmptyArray: Value := Obj(ArrayObject, map[])

  function FunctionValue(fn: FnRef): Value {
    Obj(Function(fn), map[])
  }

  /** JavaScript's `ToBoolean`, for the values modelled here. */
  predicate Truthy(v: Value) {
    match v
    case Undefined => false
    case Null => false
    case Bool(b) => b
    case Num(n) => n != 0
    case Str(s) => s != ""
    case Obj(_, _) => true
  }

  predicate Nullish(v: Value) {
    v.Undefined? || v.Null?
  }

  /** `typeof v === "function"`. */
  predicate IsFunction(v: Value) {
    v.Obj? && v.kind.Function?
  }

  /** `v[key]` for a value that is not null or undefined: an own property, or
      `undefined`. None of the keys the core reads is inherited from a
      built-in prototype. */
  function Field(v: Value, key: string): Value {
    if v.Obj? && key in v.props then v.props[key] else Undefined
  }

  /** Own enumerable properties of a string: one per character, keyed by its
      index. */
  function IndexedChars(s: string): (m: map<string, Value>)
    ensures forall i :: 0 <= i < |s| ==> Decimal.Show(i) in m && m[Decimal.Show(i)] == Str([s[i]])
    ensures forall k :: k in m ==> exists i :: 0 <= i < |s| && k == Decimal.Show(i)
  {
    Decimal.ShowInjective();
    map i | 0 <= i < |s| :: Decimal.Show(i) := Str([s[i]])
  }

  /** The properties `Object.assign` copies from a source: an object's own
      enumerable properties, a string's characters, nothing from any other
      primitive, `null` or `undefined`. */
  function OwnProps(v: Value): map<string, Value> {
    match v
    case Obj(_, props) => props
    case Str(s) => IndexedChars(s)
    case _ => map[]
  }

  /** A name that is not a digit string is an own property of a value
      exactly when the value is an object holding it. */
  lemma IndexKeysAreDigits(key: string, v: Value)
    requires key != [] && !('0' <= key[0] <= '9')
    ensures key in OwnProps(v) <==> v.Obj? && key in v.props
    ensures key in OwnProps(v) ==> OwnProps(v)[key] == Field(v, key)
  {
  }

  /** `Object.assign(target, source)` on the target's own properties. */
  function Assign(target: map<string, Value>, source: Value): (r: map<string, Value>)
    ensures r.Keys == target.Keys + OwnProps(source).Keys
    ensures forall k :: k in OwnProps(source) ==> r[k] == OwnProps(source)[k]
    ensures forall k :: k in target && k !in OwnProps(source) ==> r[k] == target[k]
  {
    target + OwnProps(source)
  }

  /** `${v}` in a template literal. Objects are all rendered as a plain
      object renders. */
  function ToText(v: Value): string {
    match v
    case Undefined => "undefined"
    case Null => "null"
    case Bool(b) => if b then "true" else "false"
    case Num(n) => if n < 0 then "-" + Decimal.Show(-n) else Decimal.Show(n)
    case Str(s) => s
    case Obj(_, _) => "[object Object]"
  }
}

=== FILE: logger.dfy ===
/** Completion of the caller's logger (`createLogger`, src/index.ts:36-50):
    every one of the four logging methods the caller did not supply as a
    function is filled in, and nothing else about the logger changes. The
    logger is completed in place rather than copied, so a caller's logger
    keeps its own kind and properties, and the constructor's options hold
    the completed logger afterwards (`Client.CompletedOptions`). */
module Logger {
  import opened Js

  const Methods: set<string> := {"debug", "info", "warn", "error"}

  /** The method filled in for a missing one: silent for `debug` and `info`,
      the console for `warn` and `error`. */
  function DefaultMethod(name: string): Value {
    if name == "warn" then FunctionValue(Core(ConsoleWarn))
    else if name == "error" then FunctionValue(Core(ConsoleError))
    else FunctionValue(Core(Noop))
  }

  /** `if (typeof logger[name] !== "function") logger[name] = default`, on
      an object. */
  function Fill(logger: Value, name: string): Value
    requires logger.Obj?
  {
    if IsFunction(Field(logger, name)) then logger
    else logger.(props := logger.props[name := DefaultMethod(name)])
  }

  /** What a method slot holds after completion. */
  function Completed(logger: Value, name: string): Value {
    if IsFunction(Field(logger, name)) then Field(logger, name) else DefaultMethod(name)
  }

  function CreateLogger(logger: Value): (r: Result<Value>)
    // a missing logger becomes an empty object; null and primitives fail
    ensures r.Ok? <==> logger.Undefined? || logger.Obj?
    ensures logger.Null? ==> r == Err(ReadOfNullish("debug"))
    ensures (logger.Bool? || logger.Num? || logger.Str?) ==> r == Err(AssignOnPrimitive("debug"))
    ensures r.Ok? ==> r.value.Obj? && r.value.kind == (if logger.Obj? then logger.kind else Plain)
    // supplied functions are kept, the missing ones filled in
    ensures r.Ok? ==> forall name :: name in Methods ==>
      name in r.value.props && r.value.props[name] == Completed(logger, name)
    ensures r.Ok? ==> forall name :: name in Methods ==> IsFunction(r.value.props[name])
    // every other property is left as it was
    ensures r.Ok? ==> forall k :: k !in Methods ==>
      (k in r.value.props <==> k in OwnProps(logger)) &&
      (k in r.value.props ==> r.value.props[k] == OwnProps(logger)[k])
  {
    // `null` fails on the first read; a primitive reads `undefined` for
    // `debug` and fails on the first write
    if logger.Null? then Err(ReadOfNullish("debug"))
    else if !logger.Undefined? && !logger.Obj? then Err(AssignOnPrimitive("debug"))
    else
      var start := if logger.Undefined? then EmptyObject else logger;
      Ok(Fill(Fill(Fill(Fill(start, "debug"), "info"), "warn"), "error"))
  }

  /** Completing a completed logger changes nothing. */
  lemma CreateLoggerIdempotent(logger: Value)
    requires CreateLogger(logger).Ok?
    ensures CreateLogger(CreateLogger(logger).value) == CreateLogger(logger)
  {
  }
}

=== FILE: request_defaults.dfy ===
/** The per-instance request defaults the constructor builds
    (src/index.ts:110-142) and binds into its `request` and `graphql`
    executors. */
module RequestDefaults {
  import opened Js

  datatype RequestDefaults = RequestDefaults(
    baseUrl: Value,
    headers: map<string, Value>,
    request: map<string, Value>,
    previews: Value,   // `mediaType.previews`
    format: string)    // `mediaType.format`

  /** The request library's default API origin. */
  const DefaultBaseUrl: string := "https://api.github.com"

  /** `octokit-core.js/${VERSION} ${getUserAgent()}`: the package version and
      the platform's user agent are parameters of the model. */
  function UserAgentTrail(version: string, platform: string): (r: string)
    // the library's name and version lead, the platform's agent ends it
    ensures |r| == |"octokit-core.js/"| + |version| + 1 + |platform|
    ensures r[..|"octokit-core.js/"|] == "octokit-core.js/"
    ensures r[|"octokit-core.js/"|..|"octokit-core.js/"| + |version|] == version
    ensures r[|r| - |platform|..] == platform && r[|r| - |platform| - 1] == ' '
  {
    "octokit-core.js/" + version + " " + platform
  }

  /** The `request` entry the executor receives: a copy of the caller's
      `request` options with `hook` set to the instance's request-hook
      trigger. */
  const HookTrigger: Value := FunctionValue(Core(RequestTrigger))

  function Build(options: Value, trail: string): (r: RequestDefaults)
    requires !Nullish(options)
    // the library's user agent, after the caller's when one is set
    ensures "user-agent" in r.headers
    ensures var ua := Field(options, "userAgent");
      r.headers["user-agent"] == Str(if Truthy(ua) then ToText(ua) + " " + trail else trail)
    // a time-zone header exactly when a time zone is set, and no other header
    ensures var tz := Field(options, "timeZone");
      && r.headers.Keys == {"user-agent"} + (if Truthy(tz) then {"time-zone"} else {})
      && (Truthy(tz) ==> r.headers["time-zone"] == tz)
    // base URL and previews are replaced only by truthy options
    ensures var url := Field(options, "baseUrl");
      r.baseUrl == if Truthy(url) then url else Str(DefaultBaseUrl)
    ensures var previews := Field(options, "previews");
      r.previews == if Truthy(previews) then previews else EmptyArray
    ensures r.format == ""
    // the caller's request options are kept, except `hook`, which is the
    // instance's own
    ensures var own := OwnProps(Field(options, "request"));
      && r.request.Keys == own.Keys + {"hook"}
      && r.request["hook"] == HookTrigger
      && (forall k :: k in own && k != "hook" ==> r.request[k] == own[k])
  {
    var initial := RequestDefaults(
      Str(DefaultBaseUrl),
      map[],
      Assign(Assign(map[], Field(options, "request")), Obj(Plain, map["hook" := HookTrigger])),
      EmptyArray,
      "");
    var ua := Field(options, "userAgent");
    var withAgent := initial.(headers := initial.headers["user-agent" := Str(if Truthy(ua) then ToText(ua) + " " + trail else trail)]);
    var withUrl := if Truthy(Field(options, "baseUrl")) then withAgent.(baseUrl := Field(options, "baseUrl")) else withAgent;
    var withPreviews := if Truthy(Field(options, "previews")) then withUrl.(previews := Field(options, "previews")) else withUrl;
    if Truthy(Field(options, "timeZone"))
    then withPreviews.(headers := withPreviews.headers["time-zone" := Field(options, "timeZone")])
    else withPreviews
  }

  /** The library's own user agent always ends the header, and a string user
      agent of the caller's always starts it. */
  lemma UserAgentKeepsTrail(options: Value, trail: string)
    requires !Nullish(options)
    ensures var h := Build(options, trail).headers["user-agent"];
      h.Str? && |h.s| >= |trail| && h.s[|h.s| - |trail|..] == trail
    ensures var h := Build(options, trail).headers["user-agent"];
      Field(options, "userAgent").Str? && Truthy(Field(options, "userAgent")) ==>
        var prefix := Field(options, "userAgent").s + " ";
        |h.s| >= |prefix| && h.s[..|prefix|] == prefix
  {
  }

  /** An instance built from `{}` asks for the default origin with only the
      library's user agent and only the hook in its request options. */
  lemma NoOptionsDefaults(trail: string)
    ensures Build(EmptyObject, trail)
      == RequestDefaults(Str(DefaultBaseUrl), map["user-agent" := Str(trail)], map["hook" := HookTrigger], EmptyArray, "")
  {
  }

  /** `timeZone: "Europe/Amsterdam"` yields that `time-zone` header. */
  lemma TimeZoneHeader(trail: string)
    ensures var options := Obj(Plain, map["timeZone" := Str("Europe/Amsterdam")]);
      Build(options, trail).headers
        == map["user-agent" := Str(trail), "time-zone" := Str("Europe/Amsterdam")]
  {
  }

  /** Only `userAgent`, `baseUrl`, `previews`, `timeZone` and `request` shape
      the request defaults: options that agree on those five build the same
      defaults, whatever else they hold. */
  lemma BuildReadsOnlyItsOptions(o1: Value, o2: Value, trail: string)
    requires !Nullish(o1) && !Nullish(o2)
    requires Field(o1, "userAgent") == Field(o2, "userAgent")
    requires Field(o1, "baseUrl") == Field(o2, "baseUrl")
    requires Field(o1, "previews") == Field(o2, "previews")
    requires Field(o1, "timeZone") == Field(o2, "timeZone")
    requires Field(o1, "request") == Field(o2, "request")
    ensures Build(o1, trail) == Build(o2, trail)
  {
  }
}
